=== FILE: README.md ===
# IMP interpreter in Dafny

A model of the evaluation engine of a small IMP-style teaching language: the
tree-walking interpreter `IntImp` and the array value `ArrayValue`. Programs are
commands (skip, sequencing, assignment, array-slot assignment, conditional,
while loop, print) over expressions (natural, boolean and string literals,
identifiers, parentheses, `^`, `not`, `* / %`, `+ -`, `== !=`, comparisons,
`and`/`or`, string concatenation, string conversion and array indexing).
Values are checked for their kind only when an operator needs a particular
kind.

Files and modules:

- `values.dfy` (`Values`): the closed `Value` datatype (`Nat`, `Bool`, `Text`,
  `Arr` of optional slots, `Unit` for command results), the `Fault` kinds, a
  failure-compatible `Result`, structural equality and rendering to text.
- `array_value.dfy` (`ArrayValues`): construction by copying, and `set`.
  `getValues` is the `slots` field of `Arr`.
- `syntax.dfy` (`Syntax`): the expression and command trees, one constructor per
  visitor method.
- `int_imp.dfy` (`IntImp`): `Eval` for expressions and `Exec` for commands. The
  variable store (`Conf`) is a `map<string, Value>`; its `contains`, `get` and
  `update` are `in`, indexing and map update.
- `int_imp_properties.dfy` (`IntImpProperties`): the per-rule properties, the
  algebra of commands, and worked programs.

How the source's behaviour is represented:

- A type mismatch (`printError`) and a read of an unbound name both end the Java
  process. They are the `Fault`s `TypeMismatch` and `Unbound`.
- The two casts in array indexing (`(ArrayValue)` on the binding, `(Integer)` on
  the index) throw `ClassCastException`, which is the `Fault` `CastFailure`.
  `visitNatExp` and `visitBoolExp` wrap the whole evaluation of their operand in
  a `try` that catches this exception, so a failed cast anywhere inside an
  operand that must be a natural or a boolean is a type mismatch (`IntImp.Caught`,
  used by `IntImp.AsNat` and `IntImp.AsBool`). Inside an assignment, `print`, or
  the value of an array assignment nothing catches it, and it ends the program.
- Every other unchecked Java exception is `Crash`: division or remainder by zero,
  indexing through an unbound name (a null dereference), a position past the end
  of an array, and `ArrayList.add` past the end of an array.
- `print` writes to standard output before any later fault. So `Exec` threads the
  list of printed lines, and an `Abort` keeps the lines printed before it.
- The source re-enters `visitWhile` recursively once per iteration. `Exec` takes
  a fuel argument. Each iteration costs one unit; the body and the re-entered
  loop both run on what is left. Running out is `OutOfFuel`. `FuelMonotone`
  shows that more fuel never changes an outcome that did not run out.
- An existing array assigned past its end is not padded with empty slots:
  `ArrayList.add(index, value)` throws when `index > size`, so the model crashes
  (`ArrayValues.Set`, `IntImpProperties.ArrayAssignExisting`). Padding only
  happens when a fresh array is built (`IntImp.Fresh`).

## Model

| member | source | states |
|---|---|---|
| Values.ValueEqIsStructural | value/ArrayValue.java:24-30 | Value equality (by content for naturals, booleans and strings; element by element for array slot lists, with two empty slots equal) holds exactly when the two values are structurally identical |
| Values.SlotEqIsStructural | value/ArrayValue.java:24-30 | Two slots are equal, as `List.equals` compares them, exactly when both are empty or both hold equal values |
| Values.Render | IntImp.java:138-141 | A string renders as its content. A natural renders as decimal digits that read back to the same number |
| Values.DecimalRoundTrip | IntImp.java:138-141 | The decimal rendering of a natural reads back to that natural, so no information is lost |
| Values.ValueEq | value/ArrayValue.java:24-30 | Every value equals itself; the converse, that only identical values are equal, is `Values.ValueEqIsStructural` |
| Values.SlotEq | value/ArrayValue.java:24-30 | Every slot, empty or filled, equals itself as `List.equals` compares slots |
| ArrayValues.Copy | value/ArrayValue.java:9-13 | The constructor builds a list with the same length and the same slots, in the same order, as its input |
| ArrayValues.Set | value/ArrayValue.java:15-18 | `set(i, v)` succeeds iff `i <= size`, otherwise it crashes. For `i < size` it keeps the length; for `i == size` it grows the list by one. Slot `i` then holds `v` and every other old slot is unchanged |
| ArrayValues.SetOverwrites | value/ArrayValue.java:15-18 | Setting the same slot twice is the same as setting it once to the second value |
| ArrayValues.SetIdempotent | value/ArrayValue.java:15-16 | Setting a slot to the value it already holds leaves the list unchanged |
| ArrayValues.SetCommutes | value/ArrayValue.java:15-16 | Replacing two different in-range slots gives the same list in either order |
| ArrayValues.SetKeepsSlotsOk | value/ArrayValue.java:15-18 | If every filled slot holds an expression value and the new value is one too, that still holds after `set` |
| ArrayValues.ArrayEqualsIffSlotsEqual | value/ArrayValue.java:24-30 | Two arrays are equal iff their slot sequences are equal, empty slots included |
| ArrayValues.ArrayEqualsLaws | value/ArrayValue.java:24-30 | Array equality is reflexive and symmetric. An array never equals a value of another kind, in either argument order |
| IntImp.Caught | IntImp.java:24-32 | The fault an operand that must be a natural reports is never a failed cast: a failed cast becomes a type mismatch and every other fault is unchanged |
| IntImp.AsNat | IntImp.java:24-32 | A natural operand yields its number; it succeeds iff the operand evaluates to a natural. A failed cast inside the operand is a type mismatch, any other fault of the operand passes through unchanged, and an operand of any other kind is a type mismatch |
| IntImp.AsBool | IntImp.java:44-52 | A boolean operand yields its truth value; it succeeds iff the operand evaluates to a boolean. A failed cast inside the operand is a type mismatch, any other fault passes through unchanged, and any other kind is a type mismatch |
| IntImp.Power | IntImp.java:165-171 | `b ^ 0` is 1, `b ^ 1` is `b`, `0 ^ e` is 0 for `e > 0`, a positive base gives a positive power, and a base of at least 2 gives a power above the exponent |
| IntImp.Compare | IntImp.java:229-241 | `<` and `<=` hold when the left operand is smaller, `<=` and `>=` when the two are equal, `>` and `>=` when the left one is larger, and no comparison holds otherwise |
| IntImp.Monus | IntImp.java:191-201 | Subtraction gives `a - b` when `a >= b` and 0 when `a <= b` |
| IntImp.Eval | IntImp.java:20-22 | An expression evaluated in a store of expression values never yields the command result `Unit`, also not inside array slots |
| IntImp.Index | IntImp.java:262-270 | Array indexing succeeds iff the name is bound to an array, the index is a natural inside its length and that slot is filled; it then returns that slot's value. It fails with a failed cast iff the name is bound to a non-array or the index is not a natural; every other failure (unbound name, position past the end, empty slot) is a crash |
| IntImp.AssignStep | IntImp.java:66-74 | Assignment succeeds iff the expression evaluates. The name is then bound to the value of any kind, the bound names gain exactly that name, and every other binding is unchanged |
| IntImp.Fresh | IntImp.java:89-101 | A fresh array for index `i` has length `i + 1`, slots `0..i-1` empty and slot `i` holding the value |
| IntImp.ArrayAssignStep | IntImp.java:76-102 | A fault of the index, or an index that is not a natural, decides the outcome first; then a fault of the value expression. The step succeeds iff the index is a natural `i`, the value evaluates, and the name is not bound to an array shorter than `i`; otherwise it crashes. On success the name is bound to an array whose slot `i` holds the value, every other binding is unchanged, and stores of expression values stay so |
| IntImp.OutStep | IntImp.java:126-136 | `print` produces a line iff its expression evaluates to a string, and the line is that string's content. A non-string is a type mismatch; an evaluation fault passes through |
| IntImp.Exec | IntImp.java:59-136 | Running a command never unbinds a name and only appends to the output, also when it aborts. It keeps every binding an expression value |
| IntImp.Run | IntImp.java:54-57 | A program starts from an empty store. A finished run binds only names the program assigns, all to expression values |
| IntImp.ExecBindsOnlyAssigned | IntImp.java:66-102 | The names bound after a command are the names bound before it plus names it assigns |
| IntImpProperties.PlusMinusOnNaturals | IntImp.java:191-201 | `+` is the ordinary sum and `-` is `max(a - b, 0)` |
| IntImpProperties.SubtractionSaturatesExample | IntImp.java:198 | `3 - 7` evaluates to 0 |
| IntImpProperties.NatOperandsCheckedLeftFirst | IntImp.java:165-201 | For `^`, `* / %`, `+ -` and comparisons, a fault of the left operand, or a left operand that is not a natural, decides the outcome before the right operand matters. Then the right operand's fault or wrong kind decides it. An operand's fault passes through, except that a failed cast inside it is a type mismatch |
| IntImpProperties.NatOperatorSucceedsIff | IntImp.java:178-189 | A natural operator succeeds iff both operands are naturals and it is not `/` or `%` by zero. With natural operands the only failure is a crash |
| IntImpProperties.NatOperatorValues | IntImp.java:179-189 | On naturals, `*` computes the product |
| IntImpProperties.DivValue | IntImp.java:179-189 | On naturals with a non-zero divisor, `/` computes the quotient |
| IntImpProperties.ModValue | IntImp.java:179-189 | On naturals with a non-zero divisor, `%` computes the remainder |
| IntImpProperties.PowValue | IntImp.java:165-171 | On naturals, `^` computes the exact power |
| IntImpProperties.ComparisonValues | IntImp.java:229-241 | On naturals, `<`, `<=`, `>` and `>=` compare numerically |
| IntImpProperties.PowerAdd | IntImp.java:165-171 | `b ^ (m + n)` equals `b ^ m * b ^ n` for every base and exponents |
| IntImpProperties.LogicIsEager | IntImp.java:243-253 | `and`/`or` succeed iff both operands are booleans, whatever the left one is. The result is their conjunction/disjunction. A boolean left operand with a non-boolean right one is a type mismatch. The left operand is checked first: its fault is the result, and the right operand's fault counts only when the left one is a boolean |
| IntImpProperties.EagerAndExample | IntImp.java:243-253 | `false and 5` is a type mismatch, and so is `5 and y` with `y` unbound: the left operand is checked before the right one is looked up |
| IntImpProperties.IdentifierLookup | IntImp.java:215-227 | Reading a name fails iff it is unbound, and then the fault is `Unbound` and not a type mismatch. A bound name yields exactly its current binding |
| IntImpProperties.EqualityAcceptsAnyKind | IntImp.java:203-213 | `==` and `!=` succeed iff both operands evaluate, whatever their kinds. `!=` is the negation of `==`, and `==` holds iff the two values are identical. The left operand is evaluated first: its fault is the result, and the right operand's fault counts only when the left one evaluates |
| IntImpProperties.EqualityReflexive | IntImp.java:203-213 | An expression that evaluates is `==` to itself and not `!=` to itself |
| IntImpProperties.ConcatenationRenders | IntImp.java:255-260 | Concatenating two strings gives their concatenation. Converting a string to a string leaves it unchanged |
| IntImpProperties.ConcatenationAcceptsAnyKind | IntImp.java:255-260 | `+` on strings accepts operands of every kind and joins their renderings, left first. A fault of the left operand is the result; the right operand's fault counts only when the left one evaluates |
| IntImpProperties.ToStringAcceptsAnyKind | IntImp.java:139-141 | String conversion renders a value of every kind, and a fault of its operand passes through unchanged |
| IntImpProperties.NotNegates | IntImp.java:174-176 | `not` of a boolean is its negation. Otherwise it fails as the boolean check of its operand does: an evaluation fault passes through, a failed cast or another kind is a type mismatch |
| IntImpProperties.ParenthesesTransparent | IntImp.java:161-163 | A parenthesised expression has exactly the value, or the fault, of the expression inside |
| IntImpProperties.ArrayIndexing | IntImp.java:262-270 | A fault of the index expression comes first. A successful lookup returns the filled slot at the natural index of an array bound to the name. After the index evaluated, a failure is a failed cast iff the name is bound to a non-array or the index is not a natural, and a crash otherwise |
| IntImpProperties.AssignBinds | IntImp.java:66-74 | Assignment rebinds only the name and leaves the output unchanged; a failing expression aborts with its fault |
| IntImpProperties.ArrayAssignChecksIndexFirst | IntImp.java:77-80 | If the index is not a natural or fails to evaluate, array assignment aborts with the fault `visitNatExp` reports before the value expression matters |
| IntImpProperties.ArrayAssignFresh | IntImp.java:89-101 | Assigning slot `i` of a name that is unbound or holds a non-array binds an array of length `i + 1`. Its slots before `i` are empty and slot `i` holds the value |
| IntImpProperties.ArrayAssignExisting | IntImp.java:82-87 | Assigning slot `i` of an array of length `n` rebinds the name to the old slots with slot `i` set (replaced, or appended when `i == n`). For `i > n` it crashes |
| IntImpProperties.PrintAppendsOneLine | IntImp.java:126-136 | Printing a string appends exactly one line, its content. Printing another kind of value is a type mismatch, and an evaluation fault aborts with that fault |
| IntImpProperties.SeqThreadsState | IntImp.java:110-114 | `c1; c2` runs `c2` in the state `c1` leaves. If `c1` aborts or runs out of fuel, that is the outcome of the whole sequence and `c2` never runs |
| IntImpProperties.SkipIsNeutral | IntImp.java:105-114 | `skip; c` and `c; skip` behave exactly like `c` |
| IntImpProperties.SeqAssociative | IntImp.java:110-114 | `(c1; c2); c3` behaves exactly like `c1; (c2; c3)` |
| IntImpProperties.IfSelectsBranch | IntImp.java:59-64 | A conditional runs the branch its boolean condition selects. A non-boolean condition is a type mismatch. A condition whose check fails aborts with that fault (an unbound name stays `Unbound`, a failed cast becomes a type mismatch) and the output so far is kept |
| IntImpProperties.WhileFalseIsSkip | IntImp.java:117-119 | A loop whose condition is false finishes with the state unchanged |
| IntImpProperties.WhileUnfolds | IntImp.java:117-124 | A loop whose condition holds is its body followed by the loop again, for one unit of fuel |
| IntImpProperties.WhileConditionMustBeBoolean | IntImp.java:117-119 | A non-boolean loop condition is a type mismatch. A condition whose check fails aborts with that fault (an unbound name stays `Unbound`, a failed cast becomes a type mismatch) before the body runs, keeping the output so far |
| IntImpProperties.FuelMonotone | IntImp.java:116-124 | More fuel never changes an outcome that did not run out of fuel |
| IntImpProperties.ExecFrame | IntImp.java:66-124 | A name a command does not assign keeps its binding, or stays unbound |
| IntImpProperties.SequencingOrderExample | IntImp.java:110-114 | `x := 1; x := 2` leaves `x` bound to 2 |
| IntImpProperties.WhileCountsToThree | IntImp.java:116-124 | `x := 0; while (x < 3) x := x + 1` finishes with `x == 3` given fuel for three iterations |
| IntImpProperties.LoopWalks | IntImp.java:116-124 | A loop that moves from state `at(j)` to `at(j + 1)` in one iteration for every `j` from `k` below `n`, and stops in `at(n)`, ends in `at(n)` from `at(k)` given fuel for the `n - k` iterations |
| IntImpProperties.CounterSteps | IntImp.java:116-124 | Below 3, each iteration of `while (x < 3) x := x + 1` raises `x` by one and costs one unit of fuel |
| IntImpProperties.CounterStep | IntImp.java:117-124 | One iteration of that loop from a given `x` below 3 reaches `x + 1` and costs one unit of fuel |
| IntImpProperties.CounterBody | IntImp.java:66-74 | The body `x := x + 1` takes `x` from `j` to `j + 1` |
| IntImpProperties.ArrayGrowthExample | IntImp.java:76-102 | `a[3] := "v"` on an unbound `a` gives four slots with only the last one filled. A later `a[1] := "w"` fills slot 1 and keeps the length at four |
| IntImpProperties.FaultExamples | IntImp.java:215-227 | Reading an unassigned name is `Unbound`, while printing a natural is a type mismatch. Lines printed before a fault are kept |
| IntImpProperties.CastFailureExamples | IntImp.java:262-270 | Indexing a name bound to a natural, or indexing with a boolean, is a failed cast; `1 + a[0]` with `a` bound to a natural is a type mismatch |
| IntImpProperties.CastFailureCaughtExamples | IntImp.java:24-80 | A failed cast in the condition of an `if` or in the index of an array assignment is a type mismatch |
| IntImpProperties.CastFailureUncaughtExamples | IntImp.java:66-136 | A failed cast in the expression of an assignment or of `print` ends the program as a failed cast, not as a type mismatch |

## Left out

- Diagnostic output and process exit (`printError`, the unbound-name message, `System.exit(1)`) are the abstract `Fault` outcomes. Their text, source positions and exit codes are not modelled.
- The ANTLR visitor dispatch, parse contexts and `Token` positions are replaced by the `Syntax` datatypes.
- Lexing of literals (`Integer.parseInt`, `Boolean.parseBoolean`, stripping the quotes of string literals) is out: literals arrive already parsed.
- Java's 32-bit `int` is not modelled. Naturals are unbounded, so the wrap-around of `+`, `*` and `left - right` does not occur in the model. A literal too large for an `int` makes `Integer.parseInt` throw in the source; the model accepts every natural literal.
- IntImp.Power: `^` is exact integer power. The source computes `Math.pow` on doubles and casts the result to `int`, which loses precision above 2^53 and saturates at `Integer.MAX_VALUE`.
- Values.Render: the value classes' `toString` methods are not part of this model. Only the rendering of strings (their content) matters for `print`. The decimal rendering of naturals, the bracketed form chosen for arrays and the empty rendering of `Unit` are a modelling choice.
- Values.DecimalRoundTrip: `NatValue.toString` is not part of this model, so the decimal rendering it proves lossless is an assumed stand-in for it, not a property of the source.
- `ArrayValue.hashCode` is left out.
- Array aliasing is not modelled: values are immutable. In the source, `b := a` shares one `ArrayValue` object, and `a[i] := v` first mutates that object in place. Only then is `a` rebound to a fresh copy. So `b` also sees the update, but later updates to `a` no longer reach `b`. In the model `b` keeps the old array. The same sharing happens through slots: after `b[0] := a; a[0] := 9; x := b[0]; y := x[0]` the source gives `y` = 9, because the set at value/ArrayValue.java:16 mutates the shared object before the copy at IntImp.java:84, while the model gives the old value 1. Likewise `a[0] := a` makes an array contain itself in the source; the model stores a snapshot of the old array instead.
- IntImp.ArrayAssignStep: "every other binding is unchanged" holds under the model's value semantics only. In the source a name that shares the array with `x` (after `b := x`) sees the update, because `set` mutates the shared object (value/ArrayValue.java:16, IntImp.java:83) before `x` is rebound to a copy (IntImp.java:84).
- IntImpProperties.ArrayAssignExisting: the same holds for its frame. A name sharing the array with the assigned name reads the new slot in the source, but keeps the old array in the model.
- IntImpProperties.ExecFrame: the frame is about values, not objects. After `b := a`, the command `a[0] := 9` does not assign `b`, yet in the source `b[0]` then reads 9; in the model `b` keeps its binding.
- IntImp.Index: reading an empty slot is a `Crash` in the model, although the source returns `null` there, and the outcome depends on where the read sits. The model agrees where the `null` is dereferenced, which also crashes: as an operand that must be a natural or a boolean (`.toJavaValue()`, IntImp.java:26 and 46), as the left operand of `==`/`!=`, in concatenation or string conversion, and as the index into a name bound to an array. It disagrees elsewhere. As the index into a name bound to a non-array, the cast of that binding fails first. As the right operand of `==`/`!=` the `null` compares unequal (value/ArrayValue.java:27 for an array on the left). `print` of it is a type mismatch (IntImp.java:130-131). An assignment hands it to the store. An array assignment stores it as an empty slot, except as slot 0 of a fresh array, where `List.of` rejects it.
- `Conf` is not part of this model. The map semantics of `contains`, `get` and `update` are assumed.
- The unreachable `default -> null` arms of the operator switches are not modelled: every operator constructor is matched exhaustively.
- IntImp.Exec: loops run on fuel. A loop that never ends is `OutOfFuel` at every fuel, and the Java stack overflow from its per-iteration recursion is not modelled.

=== FILE: array_value.dfy ===
/** The slot list of an array value (value/ArrayValue.java): construction by
    copying, and the one mutation, `set`.  A slot list is `seq<Option<Value>>`;
    `getValues` is the `slots` field of `Values.Arr`. */
module ArrayValues {
  import opened Values

  type Slots = seq<Option<Value>>

  /** The constructor: a fresh list filled by adding the given slots one at a
      time, in order.  The interpreter does not call it here: the copy it makes
      when an array assignment rebinds the name (IntImp.java:84) is implicit in
      this model, where slot lists are immutable values. */
  method Copy(xs: Slots) returns (ys: Slots)
    ensures |ys| == |xs|
    ensures forall i :: 0 <= i < |xs| ==> ys[i] == xs[i]
  {
    ys := [];
    var k := 0;
    while k < |xs|
      invariant 0 <= k <= |xs|
      invariant ys == xs[..k]
    {
      ys := ys + [xs[k]];
      k := k + 1;
    }
  }

  /** `set(index, value)`: a position inside the list is replaced, the position
      just past its end is appended, and any later position makes
      `ArrayList.add` throw, which is a `Crash`.  Nothing is padded. */
  function Set(xs: Slots, i: nat, v: Value): (r: Result<Slots>)
    ensures r.Ok? <==> i <= |xs|
    ensures r.Fail? ==> r.fault == Crash
    ensures r.Ok? ==> |r.value| == if i < |xs| then |xs| else |xs| + 1
    ensures r.Ok? ==> r.value[i] == Some(v)
    ensures r.Ok? ==> forall j :: 0 <= j < |xs| && j != i ==> r.value[j] == xs[j]
  {
    if i < |xs| then Ok(xs[i := Some(v)])
    else if i == |xs| then Ok(xs + [Some(v)])
    else Fail(Crash)
  }

  /** Setting a slot twice keeps only the second value. */
  lemma SetOverwrites(xs: Slots, i: nat, v: Value, w: Value)
    requires i <= |xs|
    ensures Set(xs, i, v).Ok?
    ensures Set(Set(xs, i, v).value, i, w) == Set(xs, i, w)
  {
    if i == |xs| {
      assert (xs + [Some(v)])[i := Some(w)] == xs + [Some(w)];
    } else {
      assert xs[i := Some(v)][i := Some(w)] == xs[i := Some(w)];
    }
  }

  /** Setting a slot to the value it already holds changes nothing. */
  lemma SetIdempotent(xs: Slots, i: nat, v: Value)
    requires i < |xs| && xs[i] == Some(v)
    ensures Set(xs, i, v) == Ok(xs)
  {
    assert xs[i := Some(v)] == xs;
  }

  /** Updates of two different positions inside the list commute. */
  lemma SetCommutes(xs: Slots, i: nat, j: nat, v: Value, w: Value)
    requires i < |xs| && j < |xs| && i != j
    ensures Set(Set(xs, i, v).value, j, w) == Set(Set(xs, j, w).value, i, v)
  {
    assert xs[i := Some(v)][j := Some(w)] == xs[j := Some(w)][i := Some(v)];
  }

  /** `set` keeps every filled slot an expression value. */
  lemma SetKeepsSlotsOk(xs: Slots, i: nat, v: Value)
    requires SlotsOk(xs) && IsExpValue(v) && i <= |xs|
    ensures SlotsOk(Set(xs, i, v).value)
  {
  }

  /** Two arrays are equal exactly when their slot lists are, position by
      position, empty slots included. */
  lemma ArrayEqualsIffSlotsEqual(xs: Slots, ys: Slots)
    ensures ValueEq(Arr(xs), Arr(ys)) <==> xs == ys
  {
    ValueEqIsStructural(Arr(xs), Arr(ys));
  }

  /** `equals` on arrays is reflexive and symmetric, and an array never equals
      a value of another kind (the `getClass` test). */
  lemma ArrayEqualsLaws(xs: Slots, ys: Slots, v: Value)
    ensures ValueEq(Arr(xs), Arr(xs))
    ensures ValueEq(Arr(xs), Arr(ys)) == ValueEq(Arr(ys), Arr(xs))
    ensures !v.Arr? ==> !ValueEq(Arr(xs), v) && !ValueEq(v, Arr(xs))
  {
    ValueEqIsStructural(Arr(xs), Arr(xs));
    ValueEqIsStructural(Arr(xs), Arr(ys));
    ValueEqIsStructural(Arr(ys), Arr(xs));
  }
}

=== FILE: int_imp.dfy ===
/** The tree-walking interpreter (IntImp.java): expression evaluation against
    an environment, and command execution that threads the environment and the
    lines printed so far. */
module IntImp {
  import opened Values
  import opened Syntax
  import ArrayValues

  /** The variable store (`Conf`): `x in env` is `contains`, `env[x]` is `get`
      and `env[x := v]` is `update`. */
  type Env = map<string, Value>

  /** Every binding holds an expression value. */
  predicate EnvOk(env: Env) {
    forall x :: x in env ==> IsExpValue(env[x])
  }

  /** What a running program has built up: its bindings and its standard output,
      one entry per printed line. */
  datatype State = State(env: Env, out: seq<string>)

  /** How running a command ends.  `Done` is the unit command result with the
      state it leaves; `Abort` is a fault together with the lines printed before
      it; `OutOfFuel` means the loop budget of the model ran out. */
  datatype Outcome = Done(st: State) | Abort(fault: Fault, out: seq<string>) | OutOfFuel

  /** The fault an operand that must be a natural or a boolean reports when
      its evaluation fails: the `try` around the evaluation catches a
      `ClassCastException` raised anywhere inside it and reports a type
      mismatch; every other fault passes through. */
  function Caught(f: Fault): (g: Fault)
    ensures g != CastFailure
    ensures f == CastFailure ==> g == TypeMismatch
    ensures f != CastFailure ==> g == f
  {
    if f == CastFailure then TypeMismatch else f
  }

  /** `visitNatExp`: an evaluated operand that must be a natural. */
  function AsNat(r: Result<Value>): (n: Result<nat>)
    ensures n.Ok? <==> r.Ok? && r.value.Nat?
    ensures n.Ok? ==> n.value == r.value.n
    ensures r.Fail? && r.fault != CastFailure ==> n == Fail(r.fault)
    ensures r.Fail? && r.fault == CastFailure ==> n == Fail(TypeMismatch)
    ensures r.Ok? && !r.value.Nat? ==> n == Fail(TypeMismatch)
  {
    match r
    case Fail(f) => Fail(Caught(f))
    case Ok(v) => if v.Nat? then Ok(v.n) else Fail(TypeMismatch)
  }

  /** `visitBoolExp`: an evaluated operand that must be a boolean. */
  function AsBool(r: Result<Value>): (p: Result<bool>)
    ensures p.Ok? <==> r.Ok? && r.value.Bool?
    ensures p.Ok? ==> p.value == r.value.b
    ensures r.Fail? && r.fault != CastFailure ==> p == Fail(r.fault)
    ensures r.Fail? && r.fault == CastFailure ==> p == Fail(TypeMismatch)
    ensures r.Ok? && !r.value.Bool? ==> p == Fail(TypeMismatch)
  {
    match r
    case Fail(f) => Fail(Caught(f))
    case Ok(v) => if v.Bool? then Ok(v.b) else Fail(TypeMismatch)
  }

  /** Subtraction of naturals, saturating at zero (`Math.max(left - right, 0)`). */
  function Monus(a: nat, b: nat): (r: nat)
    ensures a >= b ==> r + b == a
    ensures a <= b ==> r == 0
  {
    if a - b > 0 then a - b else 0
  }

  /** `left` to the power `right`, computed exactly (the source goes through
      `Math.pow` on doubles; 0 to the power 0 is 1 there too). */
  function Power(base: nat, exp: nat): (r: nat)
    ensures exp == 0 ==> r == 1
    ensures exp == 1 ==> r == base
    ensures base == 0 && exp > 0 ==> r == 0
    ensures base >= 1 ==> r >= 1
    ensures base >= 2 ==> r > exp
  {
    if exp == 0 then 1 else base * Power(base, exp - 1)
  }

  /** The four comparisons of `visitCmpExp`, each decided by where `a` lies
      relative to `b`. */
  function Compare(op: CmpOp, a: nat, b: nat): (r: bool)
    ensures a < b ==> (r <==> op.Lt? || op.Leq?)
    ensures a == b ==> (r <==> op.Leq? || op.Geq?)
    ensures a > b ==> (r <==> op.Gt? || op.Geq?)
  {
    match op
    case Geq => a >= b
    case Leq => a <= b
    case Lt => a < b
    case Gt => a > b
  }

  /** Evaluates an expression.  Operands are evaluated left to right and each is
      checked as soon as it is evaluated, so the first failure wins. */
  function Eval(e: Exp, env: Env): (r: Result<Value>)
    ensures EnvOk(env) && r.Ok? ==> IsExpValue(r.value)
    decreases e
  {
    match e
    case NatLit(n) => Ok(Nat(n))
    case BoolLit(b) => Ok(Bool(b))
    case StringLit(s) => Ok(Text(s))
    case Id(x) => if x in env then Ok(env[x]) else Fail(Unbound)
    case ParExp(e1) => Eval(e1, env)
    case Pow(l, r) =>
      var a :- AsNat(Eval(l, env));
      var b :- AsNat(Eval(r, env));
      Ok(Nat(Power(a, b)))
    case Not(e1) =>
      var p :- AsBool(Eval(e1, env));
      Ok(Bool(!p))
    case DivMulMod(op, l, r) =>
      var a :- AsNat(Eval(l, env));
      var b :- AsNat(Eval(r, env));
      (match op
       case Div => if b == 0 then Fail(Crash) else Ok(Nat(a / b))
       case Mul => Ok(Nat(a * b))
       case Mod => if b == 0 then Fail(Crash) else Ok(Nat(a % b)))
    case PlusMinus(op, l, r) =>
      var a :- AsNat(Eval(l, env));
      var b :- AsNat(Eval(r, env));
      (match op
       case Plus => Ok(Nat(a + b))
       case Minus => Ok(Nat(Monus(a, b))))
    case EqExp(op, l, r) =>
      var u :- Eval(l, env);
      var w :- Eval(r, env);
      (match op
       case Eqq => Ok(Bool(ValueEq(u, w)))
       case Neq => Ok(Bool(!ValueEq(u, w))))
    case CmpExp(op, l, r) =>
      var a :- AsNat(Eval(l, env));
      var b :- AsNat(Eval(r, env));
      Ok(Bool(Compare(op, a, b)))
    case LogicExp(op, l, r) =>
      var p :- AsBool(Eval(l, env));
      var q :- AsBool(Eval(r, env));
      (match op
       case And => Ok(Bool(p && q))
       case Or => Ok(Bool(p || q)))
    case ConcString(l, r) =>
      var u :- Eval(l, env);
      var w :- Eval(r, env);
      Ok(Text(Render(u) + Render(w)))
    case ToString(e1) =>
      var u :- Eval(e1, env);
      Ok(Text(Render(u)))
    case ArrayExp(x, idx) =>
      var u :- Eval(idx, env);
      Index(env, x, u)
  }

  /** The lookup of `visitArrayExp` once the index has been evaluated.  The
      store yields no array for an unbound name, so asking it for its slots is a
      null dereference (`Crash`).  A name bound to a value that is not an array,
      or an index that is not a natural, fails one of the two casts
      (`CastFailure`).  A position past the end is an index out of range
      (`Crash`), and so, in this model, is a slot that was never filled. */
  function Index(env: Env, x: string, u: Value): (r: Result<Value>)
    ensures r.Ok? <==> x in env && env[x].Arr? && u.Nat? && u.n < |env[x].slots| && env[x].slots[u.n].Some?
    ensures r.Ok? ==> r.value == env[x].slots[u.n].value
    ensures r.Fail? ==> (r.fault == CastFailure <==> x in env && (!env[x].Arr? || !u.Nat?))
    ensures r.Fail? ==> r.fault == CastFailure || r.fault == Crash
    ensures EnvOk(env) && r.Ok? ==> IsExpValue(r.value)
  {
    if x !in env then Fail(Crash)
    else if !env[x].Arr? || !u.Nat? then Fail(CastFailure)
    else if u.n >= |env[x].slots| then Fail(Crash)
    else
      match env[x].slots[u.n]
      case None => Fail(Crash)
      case Some(w) => Ok(w)
  }

  /** `visitAssign`: binds the name to the value, whatever its kind. */
  function AssignStep(env: Env, x: string, e: Exp): (r: Result<Env>)
    ensures r.Ok? <==> Eval(e, env).Ok?
    ensures r.Fail? ==> r.fault == Eval(e, env).fault
    ensures r.Ok? ==> r.value.Keys == env.Keys + {x} && r.value[x] == Eval(e, env).value
    ensures r.Ok? ==> forall y :: y in env && y != x ==> r.value[y] == env[y]
    ensures r.Ok? && EnvOk(env) ==> EnvOk(r.value)
  {
    var v :- Eval(e, env);
    Ok(env[x := v])
  }

  /** The array built when the target is not yet an array: `i` empty slots
      followed by the value (a one-slot list when `i` is 0). */
  function Fresh(i: nat, v: Value): (r: ArrayValues.Slots)
    ensures |r| == i + 1
    ensures forall j :: 0 <= j < i ==> r[j] == None
    ensures r[i] == Some(v)
  {
    if i == 0 then [Some(v)] else seq(i, _ => None) + [Some(v)]
  }

  /** `visitArrayAssignCom`: the index must be a natural and is checked before
      the value is evaluated.  An array already bound to the name gets slot `i`
      set (which crashes past its end); otherwise the name is bound to a fresh
      array.  The copy the source makes when it rebinds the name is implicit
      here: slot lists are immutable values. */
  function ArrayAssignStep(env: Env, x: string, idx: Exp, e: Exp): (r: Result<Env>)
    ensures AsNat(Eval(idx, env)).Fail? ==> r == Fail(AsNat(Eval(idx, env)).fault)
    ensures AsNat(Eval(idx, env)).Ok? && Eval(e, env).Fail? ==> r == Fail(Eval(e, env).fault)
    ensures r.Ok? <==>
      && AsNat(Eval(idx, env)).Ok?
      && Eval(e, env).Ok?
      && (x in env && env[x].Arr? ==> AsNat(Eval(idx, env)).value <= |env[x].slots|)
    ensures AsNat(Eval(idx, env)).Ok? && Eval(e, env).Ok? && r.Fail? ==> r.fault == Crash
    ensures r.Ok? ==> r.value.Keys == env.Keys + {x}
    ensures r.Ok? ==> forall y :: y in env && y != x ==> r.value[y] == env[y]
    ensures r.Ok? ==>
      var i := AsNat(Eval(idx, env)).value;
      && r.value[x].Arr?
      && i < |r.value[x].slots|
      && r.value[x].slots[i] == Some(Eval(e, env).value)
    ensures r.Ok? && EnvOk(env) ==> EnvOk(r.value)
  {
    var i :- AsNat(Eval(idx, env));
    var v :- Eval(e, env);
    if x in env && env[x].Arr? then
      var s :- ArrayValues.Set(env[x].slots, i, v);
      Ok(env[x := Arr(s)])
    else
      Ok(env[x := Arr(Fresh(i, v))])
  }

  /** `visitOut`: the line to print, which must come from a string. */
  function OutStep(env: Env, e: Exp): (r: Result<string>)
    ensures r.Ok? <==> Eval(e, env).Ok? && Eval(e, env).value.Text?
    ensures r.Ok? ==> r.value == Eval(e, env).value.s
    ensures Eval(e, env).Fail? ==> r == Fail(Eval(e, env).fault)
    ensures Eval(e, env).Ok? && !Eval(e, env).value.Text? ==> r == Fail(TypeMismatch)
  {
    var v :- Eval(e, env);
    if v.Text? then Ok(Render(v)) else Fail(TypeMismatch)
  }

  /** Continues from a step that only changes the bindings. */
  function Resume(r: Result<Env>, st: State): Outcome {
    match r
    case Ok(env) => Done(State(env, st.out))
    case Fail(f) => Abort(f, st.out)
  }

  /** Runs a command.  Each iteration of a `while` costs one unit of fuel; the
      body and the re-entered loop both run on what is left. */
  function Exec(c: Com, st: State, fuel: nat): (r: Outcome)
    ensures r.Done? ==> st.env.Keys <= r.st.env.Keys
    ensures r.Done? ==> st.out <= r.st.out
    ensures r.Abort? ==> st.out <= r.out
    ensures r.Done? && EnvOk(st.env) ==> EnvOk(r.st.env)
    decreases fuel, c
  {
    match c
    case Skip => Done(st)
    case Seq(c1, c2) =>
      var r1 := Exec(c1, st, fuel);
      if r1.Done? then Exec(c2, r1.st, fuel) else r1
    case Assign(x, e) => Resume(AssignStep(st.env, x, e), st)
    case ArrayAssign(x, idx, e) => Resume(ArrayAssignStep(st.env, x, idx, e), st)
    case If(b, c1, c2) =>
      (match AsBool(Eval(b, st.env))
       case Fail(f) => Abort(f, st.out)
       case Ok(p) => if p then Exec(c1, st, fuel) else Exec(c2, st, fuel))
    case While(b, body) =>
      (match AsBool(Eval(b, st.env))
       case Fail(f) => Abort(f, st.out)
       case Ok(p) =>
         if !p then Done(st)
         else if fuel == 0 then OutOfFuel
         else
           var r1 := Exec(body, st, fuel - 1);
           if r1.Done? then Exec(c, r1.st, fuel - 1) else r1)
    case Out(e) =>
      (match OutStep(st.env, e)
       case Fail(f) => Abort(f, st.out)
       case Ok(line) => Done(State(st.env, st.out + [line])))
  }

  /** `visitProg`: a program runs its command from an empty store with nothing
      printed yet. */
  function Run(c: Com, fuel: nat): (r: Outcome)
    ensures r.Done? ==> EnvOk(r.st.env) && r.st.env.Keys <= Assigned(c)
  {
    ExecBindsOnlyAssigned(c, State(map[], []), fuel);
    Exec(c, State(map[], []), fuel)
  }

  /** A command never removes a binding, and the only names it adds are ones it
      assigns. */
  lemma {:induction false} ExecBindsOnlyAssigned(c: Com, st: State, fuel: nat)
    ensures Exec(c, st, fuel).Done? ==> Exec(c, st, fuel).st.env.Keys <= st.env.Keys + Assigned(c)
    decreases fuel, c
  {
    match c
    case Seq(c1, c2) =>
      ExecBindsOnlyAssigned(c1, st, fuel);
      var r1 := Exec(c1, st, fuel);
      if r1.Done? {
        ExecBindsOnlyAssigned(c2, r1.st, fuel);
      }
    case If(b, c1, c2) =>
      ExecBindsOnlyAssigned(c1, st, fuel);
      ExecBindsOnlyAssigned(c2, st, fuel);
    case While(b, body) =>
      if fuel > 0 {
        ExecBindsOnlyAssigned(body, st, fuel - 1);
        var r1 := Exec(body, st, fuel - 1);
        if r1.Done? {
          ExecBindsOnlyAssigned(c, r1.st, fuel - 1);
        }
      }
    case _ =>
  }
}

=== FILE: int_imp_properties.dfy ===
/** Properties of the interpreter: the per-rule promises of the evaluator, the
    algebra of command execution, and a few worked programs. */
module IntImpProperties {
  import opened Values
  import opened Syntax
  import opened IntImp
  import ArrayValues

  // ---------------------------------------------------------------------------
  // Expressions
  // ---------------------------------------------------------------------------

  /** `+` is the ordinary sum and `-` saturates at zero. */
  lemma PlusMinusOnNaturals(l: Exp, r: Exp, env: Env, a: nat, b: nat)
    requires Eval(l, env) == Ok(Nat(a)) && Eval(r, env) == Ok(Nat(b))
    ensures Eval(PlusMinus(Plus, l, r), env) == Ok(Nat(a + b))
    ensures Eval(PlusMinus(Minus, l, r), env) == Ok(Nat(if a >= b then a - b else 0))
  {
  }

  /** `3 - 7` evaluates to 0. */
  lemma SubtractionSaturatesExample(env: Env)
    ensures Eval(PlusMinus(Minus, NatLit(3), NatLit(7)), env) == Ok(Nat(0))
  {
  }

  /** The operators over naturals (`^`, `*`, `/`, `%`, `+`, `-`, comparisons)
      evaluate and check the left operand before the right one is evaluated; a
      fault of the left operand, or a left operand of another kind, decides the
      outcome whatever the right operand is.  An operand's fault passes through,
      except that a failed cast inside it is reported as a type mismatch. */
  lemma NatOperandsCheckedLeftFirst(e: Exp, env: Env)
    requires NatOperator(e)
    ensures Eval(e.l, env).Fail? ==> Eval(e, env) == Fail(Caught(Eval(e.l, env).fault))
    ensures Eval(e.l, env).Fail? && Eval(e.l, env).fault == CastFailure ==> Eval(e, env) == Fail(TypeMismatch)
    ensures Eval(e.l, env).Ok? && !Eval(e.l, env).value.Nat? ==> Eval(e, env) == Fail(TypeMismatch)
    ensures AsNat(Eval(e.l, env)).Ok? && Eval(e.r, env).Fail? ==> Eval(e, env) == Fail(Caught(Eval(e.r, env).fault))
    ensures AsNat(Eval(e.l, env)).Ok? && Eval(e.r, env).Ok? && !Eval(e.r, env).value.Nat?
      ==> Eval(e, env) == Fail(TypeMismatch)
  {
  }

  /** An operator over naturals succeeds exactly when both operands are
      naturals, except that dividing or taking the remainder by zero crashes. */
  lemma NatOperatorSucceedsIff(e: Exp, env: Env)
    requires NatOperator(e)
    ensures Eval(e, env).Ok? <==>
      && AsNat(Eval(e.l, env)).Ok?
      && AsNat(Eval(e.r, env)).Ok?
      && !(e.DivMulMod? && e.mulOp != Mul && AsNat(Eval(e.r, env)).value == 0)
    ensures Eval(e, env).Fail? && AsNat(Eval(e.l, env)).Ok? && AsNat(Eval(e.r, env)).Ok?
      ==> Eval(e, env).fault == Crash
  {
  }

  /** `*` on naturals is their product. */
  lemma {:induction false} NatOperatorValues(l: Exp, r: Exp, env: Env, a: nat, b: nat)
    requires Eval(l, env) == Ok(Nat(a)) && Eval(r, env) == Ok(Nat(b))
    ensures Eval(DivMulMod(Mul, l, r), env) == Ok(Nat(a * b))
  {
    assert AsNat(Eval(l, env)) == Ok(a) && AsNat(Eval(r, env)) == Ok(b);
  }

  /** `/` on naturals is the quotient, for a non-zero divisor. */
  lemma {:induction false} DivValue(l: Exp, r: Exp, env: Env, a: nat, b: nat)
    requires Eval(l, env) == Ok(Nat(a)) && Eval(r, env) == Ok(Nat(b))
    ensures b != 0 ==> var v := Eval(DivMulMod(Div, l, r), env); v.Ok? && v.value.Nat? && v.value.n == a / b
  {
    assert AsNat(Eval(l, env)) == Ok(a) && AsNat(Eval(r, env)) == Ok(b);
  }

  /** `%` on naturals is the remainder, for a non-zero divisor. */
  lemma {:induction false} ModValue(l: Exp, r: Exp, env: Env, a: nat, b: nat)
    requires Eval(l, env) == Ok(Nat(a)) && Eval(r, env) == Ok(Nat(b))
    ensures b != 0 ==> Eval(DivMulMod(Mod, l, r), env) == Ok(Nat(a % b))
  {
    assert AsNat(Eval(l, env)) == Ok(a) && AsNat(Eval(r, env)) == Ok(b);
  }

  /** `^` on naturals is the power of its operands. */
  lemma {:induction false} PowValue(l: Exp, r: Exp, env: Env, a: nat, b: nat)
    requires Eval(l, env) == Ok(Nat(a)) && Eval(r, env) == Ok(Nat(b))
    ensures Eval(Pow(l, r), env) == Ok(Nat(Power(a, b)))
  {
    assert AsNat(Eval(l, env)) == Ok(a) && AsNat(Eval(r, env)) == Ok(b);
  }

  /** The four comparisons on naturals compare numerically. */
  lemma {:induction false} ComparisonValues(l: Exp, r: Exp, env: Env, a: nat, b: nat)
    requires Eval(l, env) == Ok(Nat(a)) && Eval(r, env) == Ok(Nat(b))
    ensures Eval(CmpExp(Lt, l, r), env) == Ok(Bool(a < b))
    ensures Eval(CmpExp(Leq, l, r), env) == Ok(Bool(a <= b))
    ensures Eval(CmpExp(Gt, l, r), env) == Ok(Bool(a > b))
    ensures Eval(CmpExp(Geq, l, r), env) == Ok(Bool(a >= b))
  {
    assert AsNat(Eval(l, env)) == Ok(a) && AsNat(Eval(r, env)) == Ok(b);
  }

  /** The power of `^` adds up exponents: `b^(m+n) == b^m * b^n`. */
  lemma {:induction false} PowerAdd(b: nat, m: nat, n: nat)
    ensures Power(b, m + n) == Power(b, m) * Power(b, n)
    decreases n
  {
    if n > 0 {
      PowerAdd(b, m, n - 1);
      var p, q := Power(b, m), Power(b, n - 1);
      assert Power(b, m + n) == b * (p * q);
      MulSwap(b, p, q);
    }
  }

  lemma MulSwap(a: int, b: int, c: int)
    ensures a * (b * c) == b * (a * c)
  {
  }

  /** `and` and `or` are eager: they succeed only when BOTH operands are
      booleans, even when the left one already decides the result.  The left
      operand is evaluated and checked first, so its failure wins. */
  lemma {:induction false} LogicIsEager(op: LogicOp, l: Exp, r: Exp, env: Env)
    ensures Eval(LogicExp(op, l, r), env).Ok? <==> AsBool(Eval(l, env)).Ok? && AsBool(Eval(r, env)).Ok?
    ensures Eval(LogicExp(op, l, r), env).Ok? ==>
      var p, q := Eval(l, env).value.b, Eval(r, env).value.b;
      Eval(LogicExp(op, l, r), env).value == Bool(if op == And then p && q else p || q)
    ensures AsBool(Eval(l, env)).Ok? && Eval(r, env).Ok? && !Eval(r, env).value.Bool?
      ==> Eval(LogicExp(op, l, r), env) == Fail(TypeMismatch)
    ensures AsBool(Eval(l, env)).Fail? ==> Eval(LogicExp(op, l, r), env) == Fail(AsBool(Eval(l, env)).fault)
    ensures AsBool(Eval(l, env)).Ok? && AsBool(Eval(r, env)).Fail?
      ==> Eval(LogicExp(op, l, r), env) == Fail(AsBool(Eval(r, env)).fault)
  {
  }

  /** `false and 5` is a type mismatch, not `false`; `5 and y` is a type
      mismatch even when `y` is unbound. */
  lemma EagerAndExample(env: Env)
    ensures Eval(LogicExp(And, BoolLit(false), NatLit(5)), env) == Fail(TypeMismatch)
    ensures "y" !in env ==> Eval(LogicExp(And, NatLit(5), Id("y")), env) == Fail(TypeMismatch)
  {
  }

  /** Reading a name fails exactly when it is unbound, and then with `Unbound`,
      never with a type mismatch; a bound name yields its current binding. */
  lemma IdentifierLookup(x: string, env: Env)
    ensures Eval(Id(x), env).Fail? <==> x !in env
    ensures Eval(Id(x), env).Fail? ==> Eval(Id(x), env).fault == Unbound
    ensures x in env ==> Eval(Id(x), env).value == env[x]
  {
  }

  /** `==` and `!=` accept operands of any kind and are complements.  The
      left operand is evaluated first, so its fault wins. */
  lemma {:induction false} EqualityAcceptsAnyKind(l: Exp, r: Exp, env: Env)
    ensures Eval(EqExp(Eqq, l, r), env).Ok? <==> Eval(l, env).Ok? && Eval(r, env).Ok?
    ensures Eval(EqExp(Neq, l, r), env).Ok? <==> Eval(l, env).Ok? && Eval(r, env).Ok?
    ensures Eval(EqExp(Eqq, l, r), env).Ok? ==>
      && Eval(EqExp(Eqq, l, r), env).value.Bool?
      && Eval(EqExp(Neq, l, r), env).value == Bool(!Eval(EqExp(Eqq, l, r), env).value.b)
    ensures Eval(EqExp(Eqq, l, r), env).Ok? ==>
      (Eval(EqExp(Eqq, l, r), env).value.b <==> Eval(l, env).value == Eval(r, env).value)
    ensures forall op: EqOp :: (Eval(l, env).Fail? ==> Eval(EqExp(op, l, r), env) == Fail(Eval(l, env).fault))
    ensures forall op: EqOp ::
      (Eval(l, env).Ok? && Eval(r, env).Fail? ==> Eval(EqExp(op, l, r), env) == Fail(Eval(r, env).fault))
  {
    if Eval(l, env).Ok? && Eval(r, env).Ok? {
      ValueEqIsStructural(Eval(l, env).value, Eval(r, env).value);
    }
  }

  /** An expression that evaluates is equal to itself. */
  lemma EqualityReflexive(e: Exp, env: Env)
    requires Eval(e, env).Ok?
    ensures Eval(EqExp(Eqq, e, e), env) == Ok(Bool(true))
    ensures Eval(EqExp(Neq, e, e), env) == Ok(Bool(false))
  {
    ValueEqIsStructural(Eval(e, env).value, Eval(e, env).value);
  }

  /** Concatenation renders both operands, left first; on two strings it is
      plain string concatenation, and string conversion leaves a string as it is. */
  lemma ConcatenationRenders(l: Exp, r: Exp, env: Env, s: string, t: string)
    requires Eval(l, env) == Ok(Text(s)) && Eval(r, env) == Ok(Text(t))
    ensures Eval(ConcString(l, r), env) == Ok(Text(s + t))
    ensures Eval(ToString(l), env) == Ok(Text(s))
  {
  }

  /** Concatenation and string conversion accept operands of any kind and
      render them, the left operand first; a fault of an operand passes
      through, the left one's first. */
  lemma {:induction false} ConcatenationAcceptsAnyKind(l: Exp, r: Exp, env: Env)
    ensures Eval(l, env).Ok? && Eval(r, env).Ok? ==>
      Eval(ConcString(l, r), env) == Ok(Text(Render(Eval(l, env).value) + Render(Eval(r, env).value)))
    ensures Eval(l, env).Fail? ==> Eval(ConcString(l, r), env) == Fail(Eval(l, env).fault)
    ensures Eval(l, env).Ok? && Eval(r, env).Fail? ==> Eval(ConcString(l, r), env) == Fail(Eval(r, env).fault)
  {
    var c := Eval(ConcString(l, r), env);
    match Eval(l, env)
    case Fail(f) =>
      assert c == Fail(f);
    case Ok(u) =>
      match Eval(r, env)
      case Fail(g) =>
        assert c == Fail(g);
      case Ok(w) =>
        assert c == Ok(Text(Render(u) + Render(w)));
  }

  /** String conversion renders a value of any kind; only a fault of its
      operand makes it fail. */
  lemma {:induction false} ToStringAcceptsAnyKind(e: Exp, env: Env)
    ensures Eval(e, env).Ok? ==> Eval(ToString(e), env) == Ok(Text(Render(Eval(e, env).value)))
    ensures Eval(e, env).Fail? ==> Eval(ToString(e), env) == Fail(Eval(e, env).fault)
  {
  }

  /** `not` negates a boolean operand; any other operand fails as `AsBool`
      says, a failed cast inside it included. */
  lemma {:induction false} NotNegates(e: Exp, env: Env)
    ensures AsBool(Eval(e, env)).Ok? ==> Eval(Not(e), env) == Ok(Bool(!AsBool(Eval(e, env)).value))
    ensures AsBool(Eval(e, env)).Fail? ==> Eval(Not(e), env) == Fail(AsBool(Eval(e, env)).fault)
  {
  }

  /** Parentheses leave the value of their expression, or its fault, as it is. */
  lemma {:induction false} ParenthesesTransparent(e: Exp, env: Env)
    ensures Eval(ParExp(e), env) == Eval(e, env)
  {
  }

  /** Array indexing evaluates the index first (its faults win) and then looks
      up the slot.  A name bound to a non-array and an index that is not a
      natural are failed casts; an unbound name, a position past the end and
      an empty slot are crashes. */
  lemma ArrayIndexing(x: string, idx: Exp, env: Env)
    ensures Eval(idx, env).Fail? ==> Eval(ArrayExp(x, idx), env) == Fail(Eval(idx, env).fault)
    ensures Eval(ArrayExp(x, idx), env).Ok? ==>
      exists i: nat :: Eval(idx, env) == Ok(Nat(i)) && x in env && env[x].Arr? && i < |env[x].slots|
                       && env[x].slots[i] == Some(Eval(ArrayExp(x, idx), env).value)
    ensures Eval(idx, env).Ok? && Eval(ArrayExp(x, idx), env).Fail? ==>
      (Eval(ArrayExp(x, idx), env).fault == CastFailure <==> x in env && (!env[x].Arr? || !Eval(idx, env).value.Nat?))
    ensures Eval(idx, env).Ok? && Eval(ArrayExp(x, idx), env).Fail? ==>
      Eval(ArrayExp(x, idx), env).fault in {CastFailure, Crash}
  {
    if Eval(ArrayExp(x, idx), env).Ok? {
      var i: nat := Eval(idx, env).value.n;
      assert Eval(idx, env) == Ok(Nat(i));
    }
  }

  // ---------------------------------------------------------------------------
  // Commands
  // ---------------------------------------------------------------------------

  /** Assignment binds the name to the value of any kind and leaves every other
      binding and the output alone; a failing expression aborts with its fault. */
  lemma AssignBinds(x: string, e: Exp, st: State, fuel: nat)
    ensures Eval(e, st.env).Ok? ==> Exec(Assign(x, e), st, fuel) == Done(State(st.env[x := Eval(e, st.env).value], st.out))
    ensures Eval(e, st.env).Fail? ==> Exec(Assign(x, e), st, fuel) == Abort(Eval(e, st.env).fault, st.out)
  {
  }

  /** The index of an array assignment is checked as a natural before the value
      expression is looked at. */
  lemma ArrayAssignChecksIndexFirst(x: string, idx: Exp, e: Exp, st: State, fuel: nat)
    requires AsNat(Eval(idx, st.env)).Fail?
    ensures Exec(ArrayAssign(x, idx, e), st, fuel) == Abort(AsNat(Eval(idx, st.env)).fault, st.out)
  {
  }

  /** Assigning slot `i` of a name that is unbound or not an array binds it to an
      array of length `i + 1` with slots before `i` empty and slot `i` holding
      the value. */
  lemma ArrayAssignFresh(x: string, idx: Exp, e: Exp, st: State, fuel: nat, i: nat, v: Value)
    requires x !in st.env || !st.env[x].Arr?
    requires Eval(idx, st.env) == Ok(Nat(i)) && Eval(e, st.env) == Ok(v)
    ensures Exec(ArrayAssign(x, idx, e), st, fuel).Done?
    ensures
      var env' := Exec(ArrayAssign(x, idx, e), st, fuel).st.env;
      && env'[x].Arr?
      && |env'[x].slots| == i + 1
      && (forall j :: 0 <= j < i ==> env'[x].slots[j] == None)
      && env'[x].slots[i] == Some(v)
    ensures Exec(ArrayAssign(x, idx, e), st, fuel).st.out == st.out
  {
  }

  /** Assigning slot `i` of an array of length `n` replaces slot `i` when
      `i < n`, appends when `i == n`, and crashes when `i > n`. */
  lemma ArrayAssignExisting(x: string, idx: Exp, e: Exp, st: State, fuel: nat, i: nat, v: Value)
    requires x in st.env && st.env[x].Arr?
    requires Eval(idx, st.env) == Ok(Nat(i)) && Eval(e, st.env) == Ok(v)
    ensures i <= |st.env[x].slots| ==>
      Exec(ArrayAssign(x, idx, e), st, fuel)
        == Done(State(st.env[x := Arr(ArrayValues.Set(st.env[x].slots, i, v).value)], st.out))
    ensures i > |st.env[x].slots| ==> Exec(ArrayAssign(x, idx, e), st, fuel) == Abort(Crash, st.out)
  {
  }

  /** Printing a string appends exactly its content as one line; printing any
      other kind of value is a type mismatch. */
  lemma PrintAppendsOneLine(e: Exp, st: State, fuel: nat)
    ensures Eval(e, st.env).Ok? && Eval(e, st.env).value.Text? ==>
      Exec(Out(e), st, fuel) == Done(State(st.env, st.out + [Eval(e, st.env).value.s]))
    ensures Eval(e, st.env).Ok? && !Eval(e, st.env).value.Text? ==>
      Exec(Out(e), st, fuel) == Abort(TypeMismatch, st.out)
    ensures Eval(e, st.env).Fail? ==> Exec(Out(e), st, fuel) == Abort(Eval(e, st.env).fault, st.out)
  {
  }

  /** Sequencing runs the second command in the state the first one leaves;
      if the first one does not finish, its outcome is the whole outcome and
      the second command never runs. */
  lemma SeqThreadsState(c1: Com, c2: Com, st: State, fuel: nat)
    ensures Exec(c1, st, fuel).Done? ==>
      Exec(Seq(c1, c2), st, fuel) == Exec(c2, Exec(c1, st, fuel).st, fuel)
    ensures !Exec(c1, st, fuel).Done? ==> Exec(Seq(c1, c2), st, fuel) == Exec(c1, st, fuel)
  {
  }

  /** `skip` is a unit of sequencing on both sides. */
  lemma SkipIsNeutral(c: Com, st: State, fuel: nat)
    ensures Exec(Seq(Skip, c), st, fuel) == Exec(c, st, fuel)
    ensures Exec(Seq(c, Skip), st, fuel) == Exec(c, st, fuel)
  {
  }

  /** Sequencing is associative: only the order of the commands matters. */
  lemma SeqAssociative(c1: Com, c2: Com, c3: Com, st: State, fuel: nat)
    ensures Exec(Seq(Seq(c1, c2), c3), st, fuel) == Exec(Seq(c1, Seq(c2, c3)), st, fuel)
  {
  }

  /** A conditional runs exactly the branch its boolean condition selects; a
      condition whose check fails aborts with that fault. */
  lemma IfSelectsBranch(b: Exp, c1: Com, c2: Com, st: State, fuel: nat)
    ensures Eval(b, st.env) == Ok(Bool(true)) ==> Exec(If(b, c1, c2), st, fuel) == Exec(c1, st, fuel)
    ensures Eval(b, st.env) == Ok(Bool(false)) ==> Exec(If(b, c1, c2), st, fuel) == Exec(c2, st, fuel)
    ensures Eval(b, st.env).Ok? && !Eval(b, st.env).value.Bool? ==>
      Exec(If(b, c1, c2), st, fuel) == Abort(TypeMismatch, st.out)
    ensures AsBool(Eval(b, st.env)).Fail? ==>
      Exec(If(b, c1, c2), st, fuel) == Abort(AsBool(Eval(b, st.env)).fault, st.out)
  {
  }

  /** A loop whose condition is false finishes at once with nothing changed. */
  lemma WhileFalseIsSkip(b: Exp, body: Com, st: State, fuel: nat)
    requires Eval(b, st.env) == Ok(Bool(false))
    ensures Exec(While(b, body), st, fuel) == Done(st)
  {
  }

  /** A loop whose condition holds runs its body once and then itself again:
      `while b do c` is `c; while b do c`, paying one unit of fuel. */
  lemma WhileUnfolds(b: Exp, body: Com, st: State, fuel: nat)
    requires Eval(b, st.env) == Ok(Bool(true))
    ensures Exec(While(b, body), st, fuel + 1) == Exec(Seq(body, While(b, body)), st, fuel)
  {
  }

  /** A loop condition that is not a boolean is a type mismatch, and one whose
      check fails aborts with that fault before the body runs. */
  lemma WhileConditionMustBeBoolean(b: Exp, body: Com, st: State, fuel: nat)
    ensures Eval(b, st.env).Ok? && !Eval(b, st.env).value.Bool? ==>
      Exec(While(b, body), st, fuel) == Abort(TypeMismatch, st.out)
    ensures AsBool(Eval(b, st.env)).Fail? ==>
      Exec(While(b, body), st, fuel) == Abort(AsBool(Eval(b, st.env)).fault, st.out)
  {
  }

  /** More fuel never changes an outcome that did not run out of fuel: the
      budget only cuts off runs, it never alters them. */
  lemma {:induction false} FuelMonotone(c: Com, st: State, fuel: nat, more: nat)
    requires fuel <= more
    requires !Exec(c, st, fuel).OutOfFuel?
    ensures Exec(c, st, more) == Exec(c, st, fuel)
    decreases fuel, c
  {
    match c
    case Seq(c1, c2) =>
      FuelMonotone(c1, st, fuel, more);
      var r1 := Exec(c1, st, fuel);
      if r1.Done? {
        FuelMonotone(c2, r1.st, fuel, more);
      }
    case If(b, c1, c2) =>
      if AsBool(Eval(b, st.env)).Ok? {
        if AsBool(Eval(b, st.env)).value {
          FuelMonotone(c1, st, fuel, more);
        } else {
          FuelMonotone(c2, st, fuel, more);
        }
      }
    case While(b, body) =>
      if AsBool(Eval(b, st.env)) == Ok(true) {
        FuelMonotone(body, st, fuel - 1, more - 1);
        var r1 := Exec(body, st, fuel - 1);
        if r1.Done? {
          FuelMonotone(c, r1.st, fuel - 1, more - 1);
        }
      }
    case _ =>
  }

  /** A command leaves every name it does not assign exactly as it was: bound to
      the same value, or unbound. */
  lemma {:induction false} ExecFrame(c: Com, st: State, fuel: nat, y: string)
    requires y !in Assigned(c)
    requires Exec(c, st, fuel).Done?
    ensures y in Exec(c, st, fuel).st.env <==> y in st.env
    ensures y in st.env ==> Exec(c, st, fuel).st.env[y] == st.env[y]
    decreases fuel, c
  {
    match c
    case Seq(c1, c2) =>
      ExecFrame(c1, st, fuel, y);
      ExecFrame(c2, Exec(c1, st, fuel).st, fuel, y);
    case If(b, c1, c2) =>
      if AsBool(Eval(b, st.env)).value {
        ExecFrame(c1, st, fuel, y);
      } else {
        ExecFrame(c2, st, fuel, y);
      }
    case While(b, body) =>
      if AsBool(Eval(b, st.env)).value {
        ExecFrame(body, st, fuel - 1, y);
        ExecFrame(c, Exec(body, st, fuel - 1).st, fuel - 1, y);
      }
    case _ =>
  }

  // ---------------------------------------------------------------------------
  // Worked programs
  // ---------------------------------------------------------------------------

  /** `x := 1; x := 2` leaves `x` bound to 2. */
  lemma SequencingOrderExample()
    ensures Run(Seq(Assign("x", NatLit(1)), Assign("x", NatLit(2))), 0)
      == Done(State(map["x" := Nat(2)], []))
  {
  }

  /** The counting loop `while (x < 3) x := x + 1`. */
  function CounterLoop(): Com {
    While(CmpExp(Lt, Id("x"), NatLit(3)), Assign("x", PlusMinus(Plus, Id("x"), NatLit(1))))
  }

  function CounterAt(k: nat): State {
    State(map["x" := Nat(k)], [])
  }

  /** A loop that takes state `at(j)` to `at(j + 1)` in one iteration for every
      `j` from `k` below `n`, and stops in `at(n)`, finishes in `at(n)` from
      `at(k)` given fuel for the `n - k` iterations. */
  lemma {:induction false} LoopWalks(w: Com, at: nat -> State, k: nat, n: nat, fuel: nat)
    requires k <= n && fuel >= n - k
    requires forall j: nat, f: nat :: k <= j < n && f > 0 ==> Exec(w, at(j), f) == Exec(w, at(j + 1), f - 1)
    requires forall f: nat :: Exec(w, at(n), f) == Done(at(n))
    ensures Exec(w, at(k), fuel) == Done(at(n))
    decreases n - k
  {
    if k < n {
      assert Exec(w, at(k), fuel) == Exec(w, at(k + 1), fuel - 1);
      LoopWalks(w, at, k + 1, n, fuel - 1);
    }
  }

  /** Below 3, every iteration of the counting loop moves `x` from `j` to
      `j + 1` and spends one unit of fuel. */
  lemma CounterSteps()
    ensures forall j: nat, f: nat :: j < 3 && f > 0 ==>
      Exec(CounterLoop(), CounterAt(j), f) == Exec(CounterLoop(), CounterAt(j + 1), f - 1)
  {
    forall j: nat, f: nat | j < 3 && f > 0
      ensures Exec(CounterLoop(), CounterAt(j), f) == Exec(CounterLoop(), CounterAt(j + 1), f - 1)
    {
      CounterStep(j, f);
    }
  }

  /** One iteration of the counting loop below 3. */
  lemma {:induction false} CounterStep(j: nat, f: nat)
    requires j < 3 && f > 0
    ensures Exec(CounterLoop(), CounterAt(j), f) == Exec(CounterLoop(), CounterAt(j + 1), f - 1)
  {
    var w := CounterLoop();
    assert Eval(w.cond, CounterAt(j).env) == Ok(Bool(true));
    WhileUnfolds(w.cond, w.body, CounterAt(j), f - 1);
    CounterBody(j, f - 1);
  }

  /** The body of the counting loop increments `x`. */
  lemma {:induction false} CounterBody(j: nat, f: nat)
    ensures Exec(CounterLoop().body, CounterAt(j), f) == Done(CounterAt(j + 1))
  {
    var env := CounterAt(j).env;
    assert Eval(PlusMinus(Plus, Id("x"), NatLit(1)), env) == Ok(Nat(j + 1));
    assert env["x" := Nat(j + 1)] == CounterAt(j + 1).env;
  }

  /** `x := 0; while (x < 3) x := x + 1` finishes with `x == 3` given fuel for
      its three iterations. */
  lemma WhileCountsToThree(fuel: nat)
    requires fuel >= 3
    ensures Run(Seq(Assign("x", NatLit(0)), CounterLoop()), fuel) == Done(CounterAt(3))
  {
    CounterStart(fuel);
    CounterSteps();
    CounterStops();
    LoopWalks(CounterLoop(), CounterAt, 0, 3, fuel);
  }

  /** `x := 0` puts the counting loop at 0. */
  lemma CounterStart(fuel: nat)
    ensures Run(Seq(Assign("x", NatLit(0)), CounterLoop()), fuel) == Exec(CounterLoop(), CounterAt(0), fuel)
  {
    assert Exec(Assign("x", NatLit(0)), State(map[], []), fuel) == Done(CounterAt(0));
  }

  /** At 3 the counting loop stops, whatever the fuel. */
  lemma CounterStops()
    ensures forall f: nat :: Exec(CounterLoop(), CounterAt(3), f) == Done(CounterAt(3))
  {
    var w := CounterLoop();
    assert Eval(Id("x"), CounterAt(3).env) == Ok(Nat(3));
    assert Eval(w.cond, CounterAt(3).env) == Ok(Bool(false));
    forall f: nat
      ensures Exec(w, CounterAt(3), f) == Done(CounterAt(3))
    {
      WhileFalseIsSkip(w.cond, w.body, CounterAt(3), f);
    }
  }

  /** `a[3] := "v"` on an unbound `a` gives four slots with only the last one
      filled; a later `a[1] := "w"` fills slot 1 and keeps the length. */
  lemma ArrayGrowthExample()
    ensures
      var prog := Seq(ArrayAssign("a", NatLit(3), StringLit("v")), ArrayAssign("a", NatLit(1), StringLit("w")));
      Run(prog, 0) == Done(State(map["a" := Arr([None, Some(Text("w")), None, Some(Text("v"))])], []))
  {
    var grown := [None, None, None, Some(Text("v"))];
    assert Fresh(3, Text("v")) == grown;
    var s1 := Exec(ArrayAssign("a", NatLit(3), StringLit("v")), State(map[], []), 0);
    assert s1 == Done(State(map["a" := Arr(grown)], []));
    assert ArrayValues.Set(grown, 1, Text("w")).value == [None, Some(Text("w")), None, Some(Text("v"))];
  }

  /** Reading a never-assigned name is `Unbound`; printing a natural is a type
      mismatch; the two faults are told apart. */
  lemma FaultExamples()
    ensures Run(Assign("y", Id("x")), 0) == Abort(Unbound, [])
    ensures Run(Out(NatLit(1)), 0) == Abort(TypeMismatch, [])
    ensures Run(Seq(Out(StringLit("hi")), Out(NatLit(1))), 0) == Abort(TypeMismatch, ["hi"])
  {
  }

  /** A failed cast in array indexing: a name bound to a natural, or an index
      that is not a natural.  Inside an operand that must be a natural it is a
      type mismatch (`1 + a[0]` with `a` a natural). */
  lemma CastFailureExamples()
    ensures Eval(ArrayExp("a", NatLit(0)), map["a" := Nat(5)]) == Fail(CastFailure)
    ensures Eval(ArrayExp("a", BoolLit(true)), map["a" := Arr([Some(Nat(1))])]) == Fail(CastFailure)
    ensures Eval(PlusMinus(Plus, NatLit(1), ArrayExp("a", NatLit(0))), map["a" := Nat(5)]) == Fail(TypeMismatch)
  {
  }

  /** A failed cast in the condition of an `if`, or in the index of an array
      assignment, is a type mismatch. */
  lemma CastFailureCaughtExamples()
    ensures Exec(If(ArrayExp("a", BoolLit(true)), Skip, Skip), State(map["a" := Arr([Some(Nat(1))])], []), 0)
      == Abort(TypeMismatch, [])
    ensures Exec(ArrayAssign("b", ArrayExp("a", BoolLit(true)), NatLit(1)), State(map["a" := Arr([Some(Nat(1))])], []), 0)
      == Abort(TypeMismatch, [])
  {
  }

  /** Where nothing checks the kind of the operand (an assignment, `print`), a
      failed cast ends the program uncaught. */
  lemma CastFailureUncaughtExamples()
    ensures Exec(Assign("x", ArrayExp("a", NatLit(0))), State(map["a" := Nat(5)], []), 0) == Abort(CastFailure, [])
    ensures Exec(Out(ArrayExp("a", BoolLit(true))), State(map["a" := Arr([Some(Nat(1))])], []), 0)
      == Abort(CastFailure, [])
  {
  }
}

=== FILE: syntax.dfy ===
/** Abstract syntax of IMP programs, one constructor per visitor method of the
    interpreter.  Literals arrive already parsed: a natural literal carries its
    number, a string literal its content without the quotes. */
module Syntax {

  datatype AddOp = Plus | Minus
  datatype MulOp = Div | Mul | Mod
  datatype CmpOp = Geq | Leq | Lt | Gt
  datatype EqOp = Eqq | Neq
  datatype LogicOp = And | Or

  datatype Exp =
    | NatLit(n: nat)
    | BoolLit(b: bool)
    | StringLit(s: string)
    | Id(name: string)
    | ParExp(e: Exp)
    | Pow(l: Exp, r: Exp)
    | Not(e: Exp)
    | DivMulMod(mulOp: MulOp, l: Exp, r: Exp)
    | PlusMinus(addOp: AddOp, l: Exp, r: Exp)
    | EqExp(eqOp: EqOp, l: Exp, r: Exp)
    | CmpExp(cmpOp: CmpOp, l: Exp, r: Exp)
    | LogicExp(logicOp: LogicOp, l: Exp, r: Exp)
    | ConcString(l: Exp, r: Exp)
    | ToString(e: Exp)
    | ArrayExp(name: string, index: Exp)

  datatype Com =
    | Skip
    | Seq(first: Com, second: Com)
    | Assign(name: string, e: Exp)
    | ArrayAssign(name: string, index: Exp, e: Exp)
    | If(cond: Exp, thn: Com, els: Com)
    | While(cond: Exp, body: Com)
    | Out(e: Exp)

  /** The operators whose operands must both be naturals. */
  predicate NatOperator(e: Exp) {
    e.Pow? || e.DivMulMod? || e.PlusMinus? || e.CmpExp?
  }

  /** The names a command can (re)bind: targets of assignments anywhere in it. */
  function Assigned(c: Com): set<string> {
    match c
    case Skip => {}
    case Seq(c1, c2) => Assigned(c1) + Assigned(c2)
    case Assign(x, _) => {x}
    case ArrayAssign(x, _, _) => {x}
    case If(_, c1, c2) => Assigned(c1) + Assigned(c2)
    case While(_, body) => Assigned(body)
    case Out(_) => {}
  }
}

=== FILE: values.dfy ===
/** Run-time values of the IMP interpreter.

    The source has one class per value kind (NatValue, BoolValue, StringValue,
    ArrayValue for expressions, ComValue for the result of a command); here they
    are the variants of one closed datatype.  An array slot that was never
    assigned is `None` (a Java `null` in the source).
 */
module Values {

  datatype Option<+T> = None | Some(value: T)

  /** The ways an evaluation can stop early.  Both `TypeMismatch` and `Unbound`
      end the source program through `System.exit(1)`.  `CastFailure` is the
      `ClassCastException` of one of the two casts in array indexing: an
      enclosing operand that must be a natural or a boolean catches it and
      reports a type mismatch, and where no such operand encloses it, it ends
      the program like any other unchecked exception.  `Crash` stands for every
      other unchecked Java exception (division by zero, a null dereference, an
      index out of range). */
  datatype Fault = TypeMismatch | Unbound | CastFailure | Crash

  /** Either a computed value or the fault that stopped the computation.
      Failure-compatible, so evaluation steps chain with `:-`. */
  datatype Result<+T> = Ok(value: T) | Fail(fault: Fault) {
    predicate IsFailure() {
      Fail?
    }

    function PropagateFailure<U>(): Result<U>
      requires Fail?
    {
      Fail(fault)
    }

    function Extract(): T
      requires Ok?
    {
      value
    }
  }

  datatype Value =
    | Nat(n: nat)
    | Bool(b: bool)
    | Text(s: string)
    | Arr(slots: seq<Option<Value>>)
    | Unit

  /** A value an expression can produce (an `ExpValue` in the source): anything
      but the command result `Unit`, also inside array slots. */
  predicate IsExpValue(v: Value)
    decreases v
  {
    match v
    case Unit => false
    case Arr(xs) => forall i :: 0 <= i < |xs| ==> (xs[i].Some? ==> IsExpValue(xs[i].value))
    case _ => true
  }

  /** Every filled slot holds an expression value: the slot list of an array
      that is an expression value. */
  predicate SlotsOk(xs: seq<Option<Value>>) {
    IsExpValue(Arr(xs))
  }

  /** `equals` of the value classes: naturals, booleans and strings compare by
      content, an array only equals an array whose slot list is equal element
      by element (`List.equals`, where two empty slots are equal), and the
      command result is a singleton.  Every value equals itself. */
  predicate ValueEq(a: Value, b: Value)
    ensures a == b ==> ValueEq(a, b)
    decreases a
  {
    match a
    case Nat(n) => b.Nat? && b.n == n
    case Bool(p) => b.Bool? && b.b == p
    case Text(s) => b.Text? && b.s == s
    case Arr(xs) =>
      && b.Arr?
      && |xs| == |b.slots|
      && forall i :: 0 <= i < |xs| ==> SlotEq(xs[i], b.slots[i])
    case Unit => b.Unit?
  }

  /** `Objects.equals` on two slots, as `List.equals` applies it. */
  predicate SlotEq(x: Option<Value>, y: Option<Value>)
    ensures x == y ==> SlotEq(x, y)
    decreases x
  {
    match x
    case None => y.None?
    case Some(u) => y.Some? && ValueEq(u, y.value)
  }

  /** Equality of run-time values is exactly structural equality. */
  lemma {:induction false} ValueEqIsStructural(a: Value, b: Value)
    ensures ValueEq(a, b) <==> a == b
    decreases a
  {
    match a
    case Arr(xs) =>
      if b.Arr? && |xs| == |b.slots| {
        var ys := b.slots;
        forall i | 0 <= i < |xs|
          ensures SlotEq(xs[i], ys[i]) <==> xs[i] == ys[i]
        {
          SlotEqIsStructural(xs[i], ys[i]);
        }
        if ValueEq(a, b) {
          assert xs == ys;
        }
      }
    case _ =>
  }

  lemma {:induction false} SlotEqIsStructural(x: Option<Value>, y: Option<Value>)
    ensures SlotEq(x, y) <==> x == y
    decreases x
  {
    match x
    case None =>
    case Some(u) =>
      if y.Some? {
        ValueEqIsStructural(u, y.value);
      }
  }

  /** Textual form of a natural: its decimal digits, most significant first. */
  function Decimal(n: nat): (r: string)
    ensures |r| >= 1
    ensures forall i :: 0 <= i < |r| ==> '0' <= r[i] <= '9'
    decreases n
  {
    var d := [(('0' as int) + n % 10) as char];
    if n < 10 then d else Decimal(n / 10) + d
  }

  /** Reads a decimal digit string back to the natural it denotes. */
  function DigitsValue(s: string): nat
    requires forall i :: 0 <= i < |s| ==> '0' <= s[i] <= '9'
  {
    if |s| == 0 then 0 else 10 * DigitsValue(s[..|s| - 1]) + (s[|s| - 1] as int - '0' as int)
  }

  /** Rendering a natural loses nothing: its digits read back to it. */
  lemma {:induction false} DecimalRoundTrip(n: nat)
    ensures DigitsValue(Decimal(n)) == n
    decreases n
  {
    var r := Decimal(n);
    if n >= 10 {
      DecimalRoundTrip(n / 10);
      assert r[..|r| - 1] == Decimal(n / 10);
    }
  }

  /** `toString` of a value, used by `print`, string conversion and
      concatenation.  The value classes are not part of this model; naturals
      render in decimal, booleans as "true"/"false", strings as their content,
      arrays as a bracketed comma-separated list with "null" for empty slots,
      and the command result as the empty string. */
  function Render(v: Value): (r: string)
    ensures v.Text? ==> r == v.s
    ensures v.Nat? ==> (forall i :: 0 <= i < |r| ==> '0' <= r[i] <= '9') && DigitsValue(r) == v.n
    decreases v, 1
  {
    match v
    case Nat(n) => DecimalRoundTrip(n); Decimal(n)
    case Bool(b) => if b then "true" else "false"
    case Text(s) => s
    case Arr(xs) => "[" + RenderSlots(v, 0) + "]"
    case Unit => ""
  }

  function RenderSlots(v: Value, i: nat): string
    requires v.Arr? && i <= |v.slots|
    decreases v, 0, |v.slots| - i
  {
    if i == |v.slots| then ""
    else
      var item := match v.slots[i] case None => "null" case Some(u) => Render(u);
      (if i == 0 then "" else ", ") + item + RenderSlots(v, i + 1)
  }
}
